=== FILE: README.md ===
# SimpleCalendar in Dafny

A verified model of the logic inside `SimpleCalendar`, a React Native date
picker meant to sit in a modal. The user picks one day, optionally between an
inclusive `minDate` and `maxDate`. The widget hands the day back to the host
through `onSelect` as a `"YYYY-MM-DD"` string.

The model covers these pieces of the component:

- the `"YYYY-MM-DD"` parser and formatter;
- date comparison and the disabling of days, of the day view's month arrows
  and of the month view's tiles against the optional bounds;
- the fixed 6×7 day grid;
- month and year steps of the displayed month;
- the year list of the year view;
- the three view modes (`days`, `months`, `years`) and how taps move between
  them;
- selection and the string emitted to the host.

Dates follow the proleptic Gregorian calendar of ECMAScript `Date` (section
21.4.1 of ECMA-262, 2024 edition). A JS comparison of two dates made at local
midnight is a comparison of day numbers counted from 1970-01-01 (the abstract
operation DayFromYear). `Dates.DayNumber` models that, and the weekday is
`(day + 4) mod 7` (the abstract operation WeekDay).
`Dates.BeforeIsCalendarOrder` proves that this comparison is plain calendar
order. The `new Date(y, m, d)` calls with an out-of-range
month index, or with day 0, are modelled by `Dates.FirstOfMonthIndex` and
`Dates.LastOfMonthIndex`. Their contracts state the carry into the year and
that day 0 is the day before the next month's 1st.

The component's `useState` fields are one immutable record,
`Calendar.State(displayed, mode, selected)`. Every tap is an event handled by
the pure function `Calendar.Step`. It returns the next state and, for a
selection, the string passed to `onSelect`. The host's callback is therefore
an output value. "Today" and the default initial date are parameters. The
props are strings read by `Calendar.Setup`.

Modules, one per file: `Wrappers` (Option, Result), `Dates`, `DateText`,
`Navigation`, `Bounds`, `MonthGrid`, `Calendar`.

Where the code and its description differ, the model follows the code:

- The doc comments promise default bounds 50 years either side of
  `initialDate` (SimpleCalendar.js:9-10, 74-75). The code keeps an absent bound
  as `null` (SimpleCalendar.js:101, 125-126). The ±50 years are used only for
  the year list (SimpleCalendar.js:259-265). An absent bound is `None` here.
- A minimum later than the maximum is not rejected. Such a range only leaves
  every day disabled (`Bounds.Inverted` names that case).

## Model

| member | source | states |
|---|---|---|
| Dates.BeforeIsCalendarOrder | SimpleCalendar.js:141-145 | the `<` the widget applies to two dates at midnight holds exactly when the first is earlier by year, then month, then day; equal time values mean equal dates |
| Dates.FirstOfMonthIndex | SimpleCalendar.js:149-158 | `new Date(y, mi, 1)` for a year argument outside 0..99 is a valid 1st of a month whose absolute month count is `12*y + mi`, so a month index of -1 or 12 carries into the neighbouring year |
| Dates.LastOfMonthIndex | SimpleCalendar.js:166 | `new Date(y, mi + 1, 0)` for a year argument outside 0..99 is the last day of month `mi`; it lies in that month and is exactly one day before the 1st of the following month |
| Dates.IsSameDateIsEquality | SimpleCalendar.js:134-139 | `isSameDate` on two present dates holds exactly when they are the same date |
| Dates.AugustFirst2025IsFriday | SimpleCalendar.js:184 | the weekday function puts 2025-08-01 on a Friday (5, with Sunday = 0) |
| DateText.Format | SimpleCalendar.js:117-122 | the string is the year's decimal spelling, a hyphen, the month as exactly two digits, a hyphen and the day as exactly two digits; the digits read back as month and day |
| DateText.Parse | SimpleCalendar.js:100-104 | a string accepted by the parser yields a real calendar date with a year of at least 1000; anything else is an InvalidDateFormat or DateOutOfCalendar error |
| DateText.ParseBound | SimpleCalendar.js:100-101 | an absent or empty bound string gives no bound; any other string gives exactly what the parser gives |
| DateText.ParseFormatRoundTrip | SimpleCalendar.js:100-122 | parsing the formatted string of any valid date with year at least 1000 gives back that date |
| DateText.FormatParseRoundTrip | SimpleCalendar.js:100-122 | a canonical string (year without leading zero, two-digit month and day) that parses is formatted back to exactly that string |
| DateText.FormatExample | SimpleCalendar.js:117-122 | 2025-08-16 is formatted as "2025-08-16" |
| Navigation.PrevMonth | SimpleCalendar.js:149-153 | the back step gives the 1st of the month before; January goes to December of the year before |
| Navigation.NextMonth | SimpleCalendar.js:154-158 | the forward step gives the 1st of the month after; December goes to January of the year after |
| Navigation.PrevYear | SimpleCalendar.js:287-291 | the back step in the month view keeps the month and lowers the year by one, on the 1st |
| Navigation.NextYear | SimpleCalendar.js:292-296 | the forward step in the month view keeps the month and raises the year by one, on the 1st |
| Navigation.MonthStepsAreInverse | SimpleCalendar.js:149-158 | a month back then forward, or forward then back, returns to the displayed month |
| Navigation.YearStepsAreInverse | SimpleCalendar.js:287-296 | a year back then forward, or forward then back, returns to the displayed month |
| Navigation.JsFirstOfMonthIndex | SimpleCalendar.js:287-291 | the JS constructor reads a year argument 0..99 as 1900 + y and agrees with the proleptic constructor elsewhere |
| Navigation.PrevYearAsWritten | SimpleCalendar.js:287-291 | the back step as written goes from years 1..100 to year + 1899 and agrees with the corrected step elsewhere |
| Navigation.PrevYearAsWrittenSkipsCenturies | SimpleCalendar.js:287-291 | from January of year 100 the back step as written lands in January 1999, and the forward step does not lead back |
| Navigation.PrevMonthAsWritten | SimpleCalendar.js:149-153 | the month back step as written lands 1900 years late from years 0..99 and agrees with the corrected step elsewhere |
| Navigation.NextMonthAsWritten | SimpleCalendar.js:154-158 | the month forward step as written lands 1900 years late from years 0..99 and agrees with the corrected step elsewhere |
| Navigation.MonthStepsAsWrittenFromDecember99 | SimpleCalendar.js:149-158 | December of year 99, reached by one back step from January of year 100, steps as written to November 1999 and January 2000; the corrected steps give 0099-11 and 0100-01 |
| Bounds.IsDateDisabled | SimpleCalendar.js:141-145 | a day is disabled exactly when a minimum exists and the day is earlier, or a maximum exists and the day is later |
| Bounds.BoundsAreInclusive | SimpleCalendar.js:141-145 | with min not after max, min and max themselves are enabled; absent bounds disable nothing; one absent bound never causes a disabling |
| Bounds.PrevMonthDisabled | SimpleCalendar.js:160-168 | the day view's back arrow is disabled exactly when a minimum exists and every day of the preceding month is before it |
| Bounds.NextMonthDisabled | SimpleCalendar.js:169-176 | the day view's forward arrow is disabled exactly when a maximum exists and every day of the following month is after it |
| Bounds.MonthTileDisabled | SimpleCalendar.js:235-240 | for a displayed year outside 0..99, a month tile is disabled exactly when all its days are before the minimum or all are after the maximum |
| Bounds.InvertedDisablesEverything | SimpleCalendar.js:141-145 | with a minimum later than the maximum every valid day is disabled |
| Bounds.EnabledTileHasEnabledDay | SimpleCalendar.js:235-240 | with min not after max, an enabled tile's month holds a day that is not disabled |
| Bounds.YearList | SimpleCalendar.js:259-267 | the year list ascends by one from min's year (or displayed year − 50) to max's year (or displayed year + 50), inclusive, and contains exactly those years |
| Bounds.ExampleDays | SimpleCalendar.js:141-145 | with bounds 2020-08-11..2030-08-30: 08-10 disabled, both bounds enabled, 2030-08-31 disabled |
| Bounds.ExampleArrows | SimpleCalendar.js:160-168 | with min 2020-08-11 the back arrow is disabled on 2020-08 and enabled on 2020-09 |
| Bounds.ExampleYearList | SimpleCalendar.js:259-267 | with bound years 2020 and 2030 the list is exactly 2020..2030, whatever the displayed year |
| MonthGrid.BuildCalendar | SimpleCalendar.js:183-215 | for a displayed year outside 0..99, the grid has exactly 6 weeks of exactly 7 cells, and cell c of week w is cell 7w+c of the month's layout |
| MonthGrid.FillWeeks | SimpleCalendar.js:191-213 | the loops produce six weeks of seven cells which, laid end to end, are the leading blanks, the days and the trailing blanks |
| MonthGrid.FillDays | SimpleCalendar.js:191-204 | after the leading blanks and the days, the finished weeks and the open week hold exactly the first lead + daysInMonth cells of the layout |
| MonthGrid.LeadingBlanksAreWeekday | SimpleCalendar.js:184-194 | the grid starts with as many blanks as the weekday of the 1st (Sunday = 0), followed by the 1st |
| MonthGrid.NonBlankCellsAreTheMonth | SimpleCalendar.js:185-204 | for a displayed year outside 0..99, the non-blank cells are exactly days 1..daysInMonth of the displayed month, in order, for every month including leap February |
| MonthGrid.GridDatesAreMonthDays | SimpleCalendar.js:385-392 | for a displayed year outside 0..99, a date appears in the grid exactly when it is a day of the displayed month |
| Calendar.Init | SimpleCalendar.js:128-132 | the first state is the day view of the initial date's month, held as its 1st, with nothing selected |
| Calendar.Setup | SimpleCalendar.js:106-132 | props are accepted exactly when each present string parses; the result is well formed, starts in the day view on the initial (or today's) month, and carries the parsed bounds |
| Calendar.PrevArrow | SimpleCalendar.js:302-311 | the back arrow is hidden exactly in the year view, always enabled in the month view, and in the day view disabled exactly when every day of the previous month is before the minimum |
| Calendar.NextArrow | SimpleCalendar.js:349-358 | for a displayed year outside 0..99, the forward arrow is hidden exactly in the year view, always enabled in the month view, and in the day view disabled exactly when every day of the next month is after the maximum |
| Calendar.SelectDate | SimpleCalendar.js:178-181 | the emitted string is exactly the day's `formatDate` spelling; afterwards `isSameDate(day, selected)` holds, the view is unchanged, and for a year of at least 1000 the emitted string parses back to the day |
| Calendar.PickMonth | SimpleCalendar.js:247-250 | for a displayed year outside 0..99, picking tile idx shows the 1st of month idx + 1 of the displayed year in the day view |
| Calendar.PickYear | SimpleCalendar.js:275-278 | the corrected year pick: picking year y shows the 1st of the same month of year y in the month view |
| Calendar.PickYearAsWritten | SimpleCalendar.js:275-278 | the year pick as written opens year 1900 + y for a listed year 0..99 and agrees with the corrected pick elsewhere |
| Calendar.YearPickAsWrittenFrom125 | SimpleCalendar.js:259-278 | with no bounds the year view of year 125 lists 75; picking it opens 1975-03 as written and 0075-03 as corrected |
| Calendar.DayCellFor | SimpleCalendar.js:392-398 | a day cell is disabled exactly outside the bounds, marked today exactly on today's date, marked selected exactly on the selection |
| Calendar.Step | SimpleCalendar.js:149-392 | with the corrected steps and picks (JS differs from displayed months in years 0..100): every event keeps the displayed month a valid 1st of a month and the selection an enabled day; a string is emitted exactly when an enabled day of the displayed month is pressed in the day view, it is that day's format and the day becomes the selection; without an emission the selection is untouched |
| Calendar.HeaderWalksUp | SimpleCalendar.js:325-334 | the header goes days to months, months to years, years to years, and changes nothing else |
| Calendar.OnlyMonthPickReturnsToDays | SimpleCalendar.js:247-250 | only a month pick enters the day view from another view; only a year pick leaves the year view, into the month view; the day view is left only by the header |
| Calendar.DayViewArrows | SimpleCalendar.js:302-311 | for a displayed month outside years 0..99, in the day view an arrow moves one month unless it is disabled, when it does nothing |
| Calendar.MonthViewArrows | SimpleCalendar.js:304-309 | for a displayed year outside 0..100, in the month view both arrows are enabled and move one year, keeping the month |
| Calendar.YearViewHasNoArrows | SimpleCalendar.js:302-311 | in the year view both arrows are hidden and pressing them changes nothing |
| Calendar.MonthPickOpensDays | SimpleCalendar.js:232-250 | for a displayed year outside 0..99, picking an enabled tile opens the day view on that month, and with min not after max that month has a selectable day |
| Calendar.YearPickOpensMonths | SimpleCalendar.js:259-278 | picking a listed year outside 0..99 opens the month view on the same month of that year |
| Calendar.ExampleSelection | SimpleCalendar.js:178-181 | selecting 2025-08-16 with no bounds emits exactly "2025-08-16" |

## Left out

- Rendering: the JSX tree, styles, `ScrollView`/`TouchableOpacity` and opacity (SimpleCalendar.js:298-514). Only the decisions they show are modelled: which arrows exist, which are enabled, and which cells are disabled, today or selected.
- Display strings: the arrow glyphs, the Spanish month names, the weekday letters and the header labels (SimpleCalendar.js:89-97, 217-230, 336-346, 377). They are text only.
- The system clock: `new Date()` at SimpleCalendar.js:83, 113 and 147 is the `today` parameter of `Calendar.Setup` and `Calendar.DayCellFor`.
- A JS `Date` object given as `initialDate` (SimpleCalendar.js:110-111). Only its year and month are used, so an initial date is a `Dates.Date` value here.
- DateText.Parse: rejects malformed strings instead of handing them to `new Date`. JS rolls an out-of-range day or month into a neighbouring month or year (day 0 or month 0 roll back, day 32 or month 13 roll forward), reads an empty component as 0 and rolls it over like any other out-of-range value ("2025-08-" is 2025-07-31, "2025--16" is 2024-12-16), gives an Invalid Date only for a missing or non-numeric component, and ignores components after the third hyphen; `Number` also accepts surrounding whitespace, a sign and hexadecimal or exponent spellings. Here these are InvalidDateFormat or DateOutOfCalendar errors.
- DateText.Parse: rejects years below 1000. JS reads years 0..99 as 1900 + y, and a negative year breaks the split at hyphens.
- Dates.LastOfMonthIndex: is `new Date(y, mi + 1, 0)` only for a year argument outside 0..99; `new Date(99, 12, 0)` at SimpleCalendar.js:166 is 1999-12-31, not 0099-12-31.
- Bounds.MonthTileDisabled: on a displayed year 0..99 JS tests the tile's month 1900 years later; in the month view of year 99 with minimum 1500-01-01 JS enables the January tile (it tests 1999-01-31) and the model disables it.
- Calendar.PickMonth: on a displayed year 0..99 JS opens the month 1900 years later (SimpleCalendar.js:235, 248); from the month view of year 99 the January tile opens 1999-01, not 0099-01.
- Calendar.MonthPickOpensDays: states the corrected pick; on a displayed year 0..99 JS opens the month 1900 years later, as for `Calendar.PickMonth`.
- MonthGrid.BuildCalendar: on a displayed year 0..99 JS fills the cells with dates 1900 years later (SimpleCalendar.js:186, 198) after the blanks for the weekday of the displayed 1st; on 0099-12 the cells hold 1999-12 dates. The model's cells are the displayed month's own days.
- Calendar.Step: from states JS reaches through the two-digit-year rule it moves differently. With no bounds, picking year 100 in the year view of year 125 opens the month view on 0100-03, where the back arrow shows 1999-03 in JS and 0099-03 here; on the day view 0099-12 (the January tile of 0100, then back) the back arrow shows 1999-11 in JS and 0099-11 here, and pressing day 16 emits "1999-12-16" in JS and "99-12-16" here.
- Calendar.NextArrow: with initial date 1450-01-01 and maximum 1500-01-01, on the day view 0099-12 (reached through the month view of year 100 and its January tile, then back) JS compares 2000-01-01 with the maximum and disables the forward arrow; the model enables it.
- Calendar.DayViewArrows: states the corrected month steps; on the day view 0099-12 JS's back arrow shows 1999-11 and its forward arrow 2000-01.
- Calendar.MonthViewArrows: states the corrected year steps; on the month view of year 100 JS's back arrow shows year 1999, not 0099.
- MonthGrid.NonBlankCellsAreTheMonth: states the cells of the displayed month itself; on the day view 0099-12 JS's non-blank cells hold 1999-12 dates (SimpleCalendar.js:198).
- MonthGrid.GridDatesAreMonthDays: on the day view 0099-12 JS's grid offers 1999-12 dates, which are not days of the displayed month; the model's grid offers 0099-12 dates.
- Calendar.PickYear: picking a listed year 0..99 opens year 1900 + y in JS (SimpleCalendar.js:276); with no bounds, year 75 is listed in the year view of year 125, which is reached from 2025 by repeatedly picking the lowest listed year. The model opens year 75; see the Findings row and `Calendar.PickYearAsWritten`.
- Calendar.YearPickOpensMonths: states the corrected pick; for a listed year 0..99 JS opens year 1900 + y, as for `Calendar.PickYear`.
- Dates.FirstOfMonthIndex: is the JS constructor only for a year argument outside 0..99. Every member built on it (the month and year steps, the arrow flags, the day grid and the month tiles) therefore follows the corrected behaviour of the Findings rows, and the as-written constructor is `Navigation.JsFirstOfMonthIndex`.
- Navigation.PrevMonth: from a displayed month in years 0..99 JS lands 1900 years later (0099-12 goes back to 1999-11, not 0099-11); the model gives the corrected month, see `Navigation.PrevMonthAsWritten`.
- Navigation.NextMonth: from a displayed month in years 0..99 JS lands 1900 years later (0099-12 goes forward to 2000-01, not 0100-01); the model gives the corrected month, see `Navigation.NextMonthAsWritten`.
- Bounds.PrevMonthDisabled: from displayed months 0000-01 through 0100-01, whose previous month lies in years 0..99, JS tests a month 1900 years later. On 0100-01 with minimum 1500-01-01 JS tests 1999-12-31 and enables the back arrow while the model disables it, and likewise on 0099-12 with minimum 1500-01-01 JS enables the back arrow and the model disables it.
- Bounds.NextMonthDisabled: from a displayed month in years 0..99 JS tests the month 1900 years later; on 0099-12 with maximum 1500-01-01 JS disables the forward arrow and the model does not.
- The range of ECMAScript time values (about years −271821 to 275760, section 21.4.1 of ECMA-262): outside it JS produces an Invalid Date. Dates here are unbounded, so for example "300000-01-01" parses to a date.
- Time of day: every date the widget compares is created at local midnight, so comparisons are made on whole days. Timezone and daylight-saving shifts of the underlying time value are not modelled.

## Findings

| source | as written | input that shows it | evidently intended | confidence | as-written member | corrected member |
|---|---|---|---|---|---|---|
| SimpleCalendar.js:287-291 | `new Date(year - 1, month, 1)`; ECMA-262 section 21.4.2.1 makes the constructor read a year argument 0..99 as 1900 + y | month view on 0100-01, back arrow: shows 1999-01, and the forward arrow then leads to 2000-01 | 0099-01, one year back | high on the JS rule; not executed | Navigation.PrevYearAsWritten (shown by Navigation.PrevYearAsWrittenSkipsCenturies) | Navigation.PrevYear (inverse of the forward step, Navigation.YearStepsAreInverse) |
| SimpleCalendar.js:149-158 | `new Date(year, month ∓ 1, 1)` with the same 0..99 year rule | day view on 0100-01, back arrow: shows 0099-12 (the carry happens in year 100); back again shows 1999-11, forward from 0099-12 shows 2000-01 | 0099-11 and 0100-01, one month either way | high on the JS rule; not executed | Navigation.PrevMonthAsWritten, Navigation.NextMonthAsWritten (shown by Navigation.MonthStepsAsWrittenFromDecember99) | Navigation.PrevMonth, Navigation.NextMonth (inverse of each other, Navigation.MonthStepsAreInverse) |
| SimpleCalendar.js:276 | `new Date(y, month, 1)` for a picked year y, with the same 0..99 year rule | no bounds, year view of year 125 (reached from 2025 by picking the lowest listed year and pressing the header, 38 times): the list is 75..175, and picking 75 opens 1975 | the same month of year 0075 | high on the JS rule; not executed | Calendar.PickYearAsWritten (shown by Calendar.YearPickAsWrittenFrom125) | Calendar.PickYear (opens exactly the picked year, Calendar.YearPickOpensMonths) |

=== FILE: bounds.dfy ===
/** The optional inclusive `minDate`/`maxDate` bounds and everything the widget
    disables with them: day cells, the month arrows of the day view and the
    month tiles of the month view; and the list of years of the year view. */
module Bounds {
  import opened Wrappers
  import opened Dates
  import opened Navigation

  /** `minDateObj` and `maxDateObj`; `None` where the prop was absent. */
  datatype DateRange = DateRange(min: Option<Date>, max: Option<Date>)

  predicate WellformedRange(b: DateRange) {
    (b.min.Some? ==> ValidDate(b.min.value)) && (b.max.Some? ==> ValidDate(b.max.value))
  }

  /** Both bounds present and the minimum after the maximum: a range with no
      selectable day, which the widget does not reject. */
  predicate Inverted(b: DateRange) {
    b.min.Some? && b.max.Some? && EarlierInCalendar(b.max.value, b.min.value)
  }

  /** `isDateDisabled`: strictly before the minimum or strictly after the
      maximum by JS date comparison, which is to say outside the range in
      calendar order. */
  predicate IsDateDisabled(b: DateRange, d: Date)
    requires WellformedRange(b) && ValidDate(d)
    ensures IsDateDisabled(b, d) <==>
              (b.min.Some? && EarlierInCalendar(d, b.min.value))
              || (b.max.Some? && EarlierInCalendar(b.max.value, d))
  {
    BoundComparisons(b, d);
    (b.min.Some? && Before(d, b.min.value)) || (b.max.Some? && Before(b.max.value, d))
  }

  /** `prevMonthDisabled`: the last day of the month before the displayed one
      is earlier than the minimum; that is, a minimum exists and every day of
      the preceding month lies before it, so stepping back would show no
      selectable day. */
  predicate PrevMonthDisabled(b: DateRange, cur: Date)
    requires WellformedRange(b) && ValidDate(cur)
    ensures var p := PrevMonth(cur);
            PrevMonthDisabled(b, cur) <==>
              b.min.Some? && forall d :: InMonth(d, p.year, p.month) ==> EarlierInCalendar(d, b.min.value)
  {
    var prev := PrevMonth(cur);
    var lastDayPrev := LastOfMonthIndex(prev.year, prev.month - 1);
    if b.min.Some? then
      WholeMonthBefore(prev.year, prev.month, b.min.value);
      Before(lastDayPrev, b.min.value)
    else
      false
  }

  /** `nextMonthDisabled`: the first day of the month after the displayed one
      is later than the maximum; that is, a maximum exists and every day of
      the following month lies after it. */
  predicate NextMonthDisabled(b: DateRange, cur: Date)
    requires WellformedRange(b) && ValidDate(cur)
    ensures var n := NextMonth(cur);
            NextMonthDisabled(b, cur) <==>
              b.max.Some? && forall d :: InMonth(d, n.year, n.month) ==> EarlierInCalendar(b.max.value, d)
  {
    var next := NextMonth(cur);
    if b.max.Some? then
      WholeMonthAfter(next.year, next.month, b.max.value);
      Before(b.max.value, next)
    else
      false
  }

  /** The `disabled` flag of month tile `idx` (0 = January) in the month view
      of year `year`: every day of that month lies before the minimum, or every
      day lies after the maximum. */
  predicate MonthTileDisabled(b: DateRange, year: int, idx: int)
    requires WellformedRange(b) && 0 <= idx < 12
    ensures MonthTileDisabled(b, year, idx) <==>
              (b.min.Some? && forall d :: InMonth(d, year, idx + 1) ==> EarlierInCalendar(d, b.min.value))
              || (b.max.Some? && forall d :: InMonth(d, year, idx + 1) ==> EarlierInCalendar(b.max.value, d))
  {
    var tempDate := FirstOfMonthIndex(year, idx);
    SameAbsMonthSameMonth(tempDate, Date(year, idx + 1, 1));
    var lastDay := LastOfMonthIndex(tempDate.year, tempDate.month - 1);
    (if b.min.Some? then
       WholeMonthBefore(year, idx + 1, b.min.value);
       Before(lastDay, b.min.value)
     else
       false)
    || (if b.max.Some? then
          WholeMonthAfter(year, idx + 1, b.max.value);
          Before(b.max.value, tempDate)
        else
          false)
  }


  /** First and last year of the year view: the bounds' years, or 50 years
      either side of the displayed year where a bound is absent. */
  function YearSpan(b: DateRange, shownYear: int): (span: (int, int)) {
    (if b.min.Some? then b.min.value.year else shownYear - 50,
     if b.max.Some? then b.max.value.year else shownYear + 50)
  }

  /** The years offered by the year view, built by the `for` loop of
      `renderYears`. */
  function YearList(b: DateRange, shownYear: int): (years: seq<int>)
    ensures var (lo, hi) := YearSpan(b, shownYear);
            && |years| == (if lo <= hi then hi - lo + 1 else 0)
            && (|years| > 0 ==> years[0] == lo && years[|years| - 1] == hi)
            && (forall i :: 0 <= i < |years| - 1 ==> years[i] + 1 == years[i + 1])
            && (forall y :: y in years <==> lo <= y <= hi)
  {
    var (lo, hi) := YearSpan(b, shownYear);
    var years := seq(if lo <= hi then hi - lo + 1 else 0, i => lo + i);
    ConsecutiveYearsCover(years, lo, hi);
    years
  }

  lemma ConsecutiveYearsCover(years: seq<int>, lo: int, hi: int)
    requires |years| == (if lo <= hi then hi - lo + 1 else 0)
    requires forall i :: 0 <= i < |years| ==> years[i] == lo + i
    ensures forall y :: y in years <==> lo <= y <= hi
  {
    forall y | lo <= y <= hi
      ensures y in years
    {
      assert years[y - lo] == y;
    }
  }

  // ---------------------------------------------------------------------------
  // What the flags mean

  /** On valid dates the JS comparison of a day with each present bound agrees
      with calendar order. */
  lemma BoundComparisons(b: DateRange, d: Date)
    requires WellformedRange(b) && ValidDate(d)
    ensures b.min.Some? ==> (Before(d, b.min.value) <==> EarlierInCalendar(d, b.min.value))
    ensures b.max.Some? ==> (Before(b.max.value, d) <==> EarlierInCalendar(b.max.value, d))
  {
    if b.min.Some? {
      BeforeIsCalendarOrder(d, b.min.value);
    }
    if b.max.Some? {
      BeforeIsCalendarOrder(b.max.value, d);
    }
  }

  /** Every day of a month lies between its first and its last day. */
  lemma DayWithinItsMonth(d: Date)
    requires ValidDate(d)
    ensures !Before(d, FirstOfMonthIndex(d.year, d.month - 1))
    ensures !Before(LastOfMonthIndex(d.year, d.month - 1), d)
  {
    var first := FirstOfMonthIndex(d.year, d.month - 1);
    var last := LastOfMonthIndex(d.year, d.month - 1);
    SameAbsMonthSameMonth(first, d);
    SameAbsMonthSameMonth(last, d);
    BeforeIsCalendarOrder(d, first);
    BeforeIsCalendarOrder(last, d);
  }

  /** The last day of month `m` of `y` comes before `bound` exactly when every
      day of that month does. */
  lemma WholeMonthBefore(y: int, m: int, bound: Date)
    requires 1 <= m <= 12 && ValidDate(bound)
    ensures Before(LastOfMonthIndex(y, m - 1), bound) <==>
              forall d :: InMonth(d, y, m) ==> EarlierInCalendar(d, bound)
  {
    var last := LastOfMonthIndex(y, m - 1);
    SameAbsMonthSameMonth(last, Date(y, m, 1));
    BeforeIsCalendarOrder(last, bound);
    forall d | InMonth(d, y, m)
      ensures Before(last, bound) ==> EarlierInCalendar(d, bound)
    {
      DayWithinItsMonth(d);
      BeforeIsCalendarOrder(d, bound);
    }
  }

  /** The first day of month `m` of `y` comes after `bound` exactly when every
      day of that month does. */
  lemma WholeMonthAfter(y: int, m: int, bound: Date)
    requires 1 <= m <= 12 && ValidDate(bound)
    ensures Before(bound, Date(y, m, 1)) <==>
              forall d :: InMonth(d, y, m) ==> EarlierInCalendar(bound, d)
  {
    var first := Date(y, m, 1);
    assert InMonth(first, y, m);
    BeforeIsCalendarOrder(bound, first);
    forall d | InMonth(d, y, m)
      ensures Before(bound, first) ==> EarlierInCalendar(bound, d)
    {
      DayWithinItsMonth(d);
      SameAbsMonthSameMonth(FirstOfMonthIndex(d.year, d.month - 1), first);
      BeforeIsCalendarOrder(bound, d);
    }
  }

  /** The bounds are inclusive, and an absent bound disables nothing. */
  lemma BoundsAreInclusive(b: DateRange, d: Date)
    requires WellformedRange(b) && ValidDate(d) && !Inverted(b)
    ensures b.min.Some? ==> !IsDateDisabled(b, b.min.value)
    ensures b.max.Some? ==> !IsDateDisabled(b, b.max.value)
    ensures b.min.None? && b.max.None? ==> !IsDateDisabled(b, d)
    ensures b.min.None? && IsDateDisabled(b, d) ==> EarlierInCalendar(b.max.value, d)
    ensures b.max.None? && IsDateDisabled(b, d) ==> EarlierInCalendar(d, b.min.value)
  {
  }

  /** With the minimum after the maximum every day is disabled: the widget
      accepts such bounds and then offers nothing to select. */
  lemma InvertedDisablesEverything(b: DateRange, d: Date)
    requires WellformedRange(b) && ValidDate(d) && Inverted(b)
    ensures IsDateDisabled(b, d)
  {
  }

  /** With the minimum not after the maximum, an enabled month tile leads to a
      month holding at least one enabled day. */
  lemma EnabledTileHasEnabledDay(b: DateRange, year: int, idx: int) returns (d: Date)
    requires WellformedRange(b) && !Inverted(b) && 0 <= idx < 12
    requires !MonthTileDisabled(b, year, idx)
    ensures InMonth(d, year, idx + 1) && !IsDateDisabled(b, d)
  {
    var first := FirstOfMonthIndex(year, idx);
    var last := LastOfMonthIndex(first.year, first.month - 1);
    SameAbsMonthSameMonth(first, Date(year, idx + 1, 1));
    SameAbsMonthSameMonth(last, first);
    if b.min.Some? && b.min.value.year == year && b.min.value.month == idx + 1 {
      d := b.min.value;
    } else {
      d := first;
      if b.min.Some? {
        BeforeIsCalendarOrder(last, b.min.value);
        BeforeIsCalendarOrder(first, b.min.value);
      }
    }
    if b.max.Some? {
      BeforeIsCalendarOrder(b.max.value, first);
    }
  }

  // ---------------------------------------------------------------------------
  // Worked examples: minimum 2020-08-11, maximum 2030-08-30

  lemma ExampleDays()
    ensures var b := DateRange(Some(Date(2020, 8, 11)), Some(Date(2030, 8, 30)));
            && IsDateDisabled(b, Date(2020, 8, 10))
            && !IsDateDisabled(b, Date(2020, 8, 11))
            && !IsDateDisabled(b, Date(2030, 8, 30))
            && IsDateDisabled(b, Date(2030, 8, 31))
  {
  }

  lemma ExampleArrows()
    ensures var b := DateRange(Some(Date(2020, 8, 11)), None);
            PrevMonthDisabled(b, Date(2020, 8, 1)) && !PrevMonthDisabled(b, Date(2020, 9, 1))
  {
    var min := Date(2020, 8, 11);
    var lastOfJuly := LastOfMonthIndex(2020, 6);
    var lastOfAugust := LastOfMonthIndex(2020, 7);
    SameAbsMonthSameMonth(lastOfJuly, Date(2020, 7, 1));
    SameAbsMonthSameMonth(lastOfAugust, Date(2020, 8, 1));
    assert lastOfJuly == Date(2020, 7, 31) && lastOfAugust == Date(2020, 8, 31);
    BeforeIsCalendarOrder(lastOfJuly, min);
    BeforeIsCalendarOrder(lastOfAugust, min);
  }

  lemma ExampleYearList(shownYear: int)
    ensures YearList(DateRange(Some(Date(2020, 8, 11)), Some(Date(2030, 8, 30))), shownYear)
            == [2020, 2021, 2022, 2023, 2024, 2025, 2026, 2027, 2028, 2029, 2030]
  {
  }
}

=== FILE: calendar.dfy ===
/** The widget's view state and its reaction to taps: the `useState` fields
    `currentMonth`, `viewMode` and `selected` as one immutable record, and each
    press of an arrow, the header, a day cell, a month tile or a year row as a
    pure transition. The host's `onSelect` callback becomes the string a
    transition emits. */
module Calendar {
  import opened Wrappers
  import opened Dates
  import opened DateText
  import opened Navigation
  import opened Bounds

  datatype ViewMode = Days | Months | Years

  /** `currentMonth` (held as its 1st), `viewMode` and `selected`. */
  datatype State = State(displayed: Date, mode: ViewMode, selected: Option<Date>)

  /** A header arrow: not rendered, pressable, or rendered but disabled. */
  datatype Arrow = Hidden | Enabled | Disabled

  /** The presses the rendering layer reports. */
  datatype Event =
    | PrevPressed
    | NextPressed
    | HeaderPressed
    | DayPressed(date: Date)
    | MonthPicked(idx: int)    // 0 = January
    | YearPicked(year: int)

  /** The state after an event and the string passed to `onSelect`, if any. */
  datatype Transition = Transition(state: State, emitted: Option<string>)

  /** The props: each date as an optional "YYYY-MM-DD" string. */
  datatype Config = Config(initialDate: Option<string>, minDate: Option<string>, maxDate: Option<string>)

  /** A configured widget: its parsed bounds and its view state. */
  datatype Widget = Widget(bounds: DateRange, state: State)

  /** What a rendered day cell shows besides its number. */
  datatype DayCell = DayCell(date: Date, disabled: bool, isToday: bool, isSelected: bool)

  /** The displayed month is a real month held as its 1st, and a selection, once
      made, is a real date the bounds allow. */
  predicate Wellformed(b: DateRange, s: State) {
    && WellformedRange(b)
    && ValidDate(s.displayed) && s.displayed.day == 1
    && (s.selected.Some? ==> ValidDate(s.selected.value) && !IsDateDisabled(b, s.selected.value))
  }

  /** The first state: the day view of the initial date's month, nothing
      selected. */
  function Init(initial: Date): (s: State)
    requires ValidDate(initial)
    ensures s.mode == Days && s.selected.None?
    ensures s.displayed == Date(initial.year, initial.month, 1)
  {
    var first := FirstOfMonthIndex(initial.year, initial.month - 1);
    SameAbsMonthSameMonth(first, initial);
    State(first, Days, None)
  }

  /** Reading the props: an absent initial date means `today`, an absent or
      empty bound means no bound, and a string that is not a date is an
      error. */
  function Setup(c: Config, today: Date): (r: Result<Widget, ParseError>)
    requires ValidDate(today)
    ensures r.Success? <==>
              && (c.initialDate.None? || Parse(c.initialDate.value).Success?)
              && ParseBound(c.minDate).Success? && ParseBound(c.maxDate).Success?
    ensures r.Success? ==> Wellformed(r.value.bounds, r.value.state)
    ensures r.Success? ==> r.value.state.mode == Days && r.value.state.selected.None?
    ensures r.Success? && c.initialDate.None? ==>
              r.value.state.displayed == Date(today.year, today.month, 1)
    ensures r.Success? && c.initialDate.Some? ==>
              var d := Parse(c.initialDate.value).value;
              r.value.state.displayed == Date(d.year, d.month, 1)
    ensures r.Success? ==>
              r.value.bounds == DateRange(ParseBound(c.minDate).value, ParseBound(c.maxDate).value)
  {
    var initial := if c.initialDate.None? then Success(today) else Parse(c.initialDate.value);
    var min := ParseBound(c.minDate);
    var max := ParseBound(c.maxDate);
    if initial.Failure? then Failure(initial.error)
    else if min.Failure? then Failure(min.error)
    else if max.Failure? then Failure(max.error)
    else Success(Widget(DateRange(min.value, max.value), Init(initial.value)))
  }

  /** The back arrow of the header. */
  function PrevArrow(b: DateRange, s: State): (a: Arrow)
    requires Wellformed(b, s)
    ensures a == Hidden <==> s.mode == Years
    ensures s.mode == Months ==> a == Enabled
    ensures s.mode == Days ==>
              var p := PrevMonth(s.displayed);
              (a == Disabled <==>
                 b.min.Some? && forall d :: InMonth(d, p.year, p.month) ==> EarlierInCalendar(d, b.min.value))
  {
    match s.mode
    case Years => Hidden
    case Months => Enabled
    case Days => if PrevMonthDisabled(b, s.displayed) then Disabled else Enabled
  }

  /** The forward arrow of the header. */
  function NextArrow(b: DateRange, s: State): (a: Arrow)
    requires Wellformed(b, s)
    ensures a == Hidden <==> s.mode == Years
    ensures s.mode == Months ==> a == Enabled
    ensures s.mode == Days ==>
              var n := NextMonth(s.displayed);
              (a == Disabled <==>
                 b.max.Some? && forall d :: InMonth(d, n.year, n.month) ==> EarlierInCalendar(b.max.value, d))
  {
    match s.mode
    case Years => Hidden
    case Months => Enabled
    case Days => if NextMonthDisabled(b, s.displayed) then Disabled else Enabled
  }

  /** The view the header label leads to. */
  function HeaderTarget(mode: ViewMode): ViewMode {
    match mode
    case Days => Months
    case Months => Years
    case Years => Years
  }

  /** `selectDate`: remember the day and hand its string to the host. */
  function SelectDate(s: State, d: Date): (t: Transition)
    requires ValidDate(d)
    ensures t.state.selected.Some? && IsSameDate(d, t.state.selected.value)
    ensures t.state.displayed == s.displayed && t.state.mode == s.mode
    ensures t.emitted.Some? && d.year >= 1000 ==> Parse(t.emitted.value) == Success(d)
    ensures t.emitted == Some(Format(d))
    ensures t.emitted.Some? && |t.emitted.value| == |IntToDecimal(d.year)| + 6
  {
    var t := Transition(s.(selected := Some(d)), Some(Format(d)));
    if d.year >= 1000 then ParseFormatRoundTrip(d); t else t
  }

  /** Pressing month tile `idx`: show that month of the displayed year in the
      day view. */
  function PickMonth(s: State, idx: int): (r: State)
    requires 0 <= idx < 12
    ensures r.displayed == Date(s.displayed.year, idx + 1, 1)
    ensures r.mode == Days && r.selected == s.selected
  {
    var first := FirstOfMonthIndex(s.displayed.year, idx);
    SameAbsMonthSameMonth(first, Date(s.displayed.year, idx + 1, 1));
    s.(displayed := first, mode := Days)
  }

  /** Pressing year `y` in the year view: the same month of year `y`, shown in
      the month view. */
  function PickYear(s: State, y: int): (r: State)
    requires ValidDate(s.displayed)
    ensures r.displayed == Date(y, s.displayed.month, 1)
    ensures r.mode == Months && r.selected == s.selected
  {
    s.(displayed := FirstOfMonthIndex(y, s.displayed.month - 1), mode := Months)
  }

  /** Pressing year `y` as written: the JS constructor reads a listed year
      0..99 as 1900 + y. */
  function PickYearAsWritten(s: State, y: int): (r: State)
    requires ValidDate(s.displayed)
    ensures 0 <= y <= 99 ==> r.displayed == Date(1900 + y, s.displayed.month, 1)
    ensures (y < 0 || 99 < y) ==> r == PickYear(s, y)
    ensures r.mode == Months && r.selected == s.selected
  {
    var shown := JsFirstOfMonthIndex(y, s.displayed.month - 1);
    SameAbsMonthSameMonth(shown, Date(if 0 <= y <= 99 then 1900 + y else y, s.displayed.month, 1));
    s.(displayed := shown, mode := Months)
  }

  /** With no bounds the year view of year 125 lists year 75; picking it opens
      1975 as written and 0075 as corrected. */
  lemma YearPickAsWrittenFrom125()
    ensures 75 in YearList(DateRange(None, None), 125)
    ensures PickYearAsWritten(State(Date(125, 3, 1), Years, None), 75).displayed == Date(1975, 3, 1)
    ensures PickYear(State(Date(125, 3, 1), Years, None), 75).displayed == Date(75, 3, 1)
  {
    var s := State(Date(125, 3, 1), Years, None);
    assert YearList(DateRange(None, None), 125)[0] == 75;
    assert PickYearAsWritten(s, 75).displayed == Date(1975, 3, 1);
  }

  /** The flags of the day cell for `d`: disabled by the bounds, today's
      border, the selection highlight. */
  function DayCellFor(b: DateRange, s: State, today: Date, d: Date): (cell: DayCell)
    requires WellformedRange(b) && ValidDate(d)
    ensures cell.date == d
    ensures cell.disabled <==>
              (b.min.Some? && EarlierInCalendar(d, b.min.value))
              || (b.max.Some? && EarlierInCalendar(b.max.value, d))
    ensures cell.isToday <==> d == today
    ensures cell.isSelected <==> s.selected == Some(d)
  {
    DayCell(d, IsDateDisabled(b, d), IsSameDate(d, today),
            s.selected.Some? && IsSameDate(d, s.selected.value))
  }

  /** One event. A press on a control that is disabled or not on screen in the
      current view does nothing, as a disabled `TouchableOpacity` does.
      Every event keeps the state well formed: the displayed month stays a
      month held as its 1st, and the selection is never a disabled day. The
      host hears of a selection exactly when an enabled day of the displayed
      month is pressed in the day view, and then once, with that day's string;
      the day becomes the selection. No other event touches the selection. */
  function Step(b: DateRange, s: State, e: Event): (t: Transition)
    requires Wellformed(b, s)
    ensures Wellformed(b, t.state)
    ensures t.emitted.Some? <==>
              e.DayPressed? && s.mode == Days
              && InMonth(e.date, s.displayed.year, s.displayed.month) && !IsDateDisabled(b, e.date)
    ensures t.emitted.Some? ==>
              e.DayPressed? && ValidDate(e.date)
              && t.emitted == Some(Format(e.date)) && t.state.selected == Some(e.date)
    ensures t.emitted.None? ==> t.state.selected == s.selected
  {
    var ignored := Transition(s, None);
    match e
    case PrevPressed =>
      if PrevArrow(b, s) != Enabled then ignored
      else if s.mode == Months then Transition(s.(displayed := PrevYear(s.displayed)), None)
      else Transition(s.(displayed := PrevMonth(s.displayed)), None)
    case NextPressed =>
      if NextArrow(b, s) != Enabled then ignored
      else if s.mode == Months then Transition(s.(displayed := NextYear(s.displayed)), None)
      else Transition(s.(displayed := NextMonth(s.displayed)), None)
    case HeaderPressed =>
      Transition(s.(mode := HeaderTarget(s.mode)), None)
    case DayPressed(d) =>
      if s.mode == Days && InMonth(d, s.displayed.year, s.displayed.month) && !IsDateDisabled(b, d)
      then SelectDate(s, d)
      else ignored
    case MonthPicked(idx) =>
      if s.mode == Months && 0 <= idx < 12 && !MonthTileDisabled(b, s.displayed.year, idx)
      then Transition(PickMonth(s, idx), None)
      else ignored
    case YearPicked(y) =>
      if s.mode == Years && y in YearList(b, s.displayed.year)
      then Transition(PickYear(s, y), None)
      else ignored
  }

  // ---------------------------------------------------------------------------
  // Properties of the machine

  /** The header label walks days -> months -> years and stays on years. */
  lemma HeaderWalksUp(b: DateRange, s: State)
    requires Wellformed(b, s)
    ensures var r := Step(b, s, HeaderPressed).state;
            && (s.mode == Days ==> r.mode == Months)
            && (s.mode == Months ==> r.mode == Years)
            && (s.mode == Years ==> r.mode == Years)
            && r.displayed == s.displayed && r.selected == s.selected
  {
  }

  /** Only picking a month returns to the day view, and the year view never
      leads straight to it; only picking a year leaves the year view. */
  lemma OnlyMonthPickReturnsToDays(b: DateRange, s: State, e: Event)
    requires Wellformed(b, s)
    ensures var r := Step(b, s, e).state;
            && (s.mode != Days && r.mode == Days ==> e.MonthPicked? && s.mode == Months)
            && (s.mode == Years && r.mode != Years ==> e.YearPicked? && r.mode == Months)
            && (s.mode == Days ==> r.mode == Days || (e.HeaderPressed? && r.mode == Months))
  {
  }

  /** In the day view the arrows step one month, unless disabled. */
  lemma DayViewArrows(b: DateRange, s: State)
    requires Wellformed(b, s) && s.mode == Days
    ensures Step(b, s, PrevPressed).state.displayed
            == (if PrevMonthDisabled(b, s.displayed) then s.displayed else PrevMonth(s.displayed))
    ensures Step(b, s, NextPressed).state.displayed
            == (if NextMonthDisabled(b, s.displayed) then s.displayed else NextMonth(s.displayed))
  {
  }

  /** In the month view the arrows are never disabled and step one year,
      keeping the month. */
  lemma MonthViewArrows(b: DateRange, s: State)
    requires Wellformed(b, s) && s.mode == Months
    ensures PrevArrow(b, s) == Enabled && NextArrow(b, s) == Enabled
    ensures Step(b, s, PrevPressed).state == s.(displayed := Date(s.displayed.year - 1, s.displayed.month, 1))
    ensures Step(b, s, NextPressed).state == s.(displayed := Date(s.displayed.year + 1, s.displayed.month, 1))
  {
  }

  /** The year view has no arrows: pressing them does nothing. */
  lemma YearViewHasNoArrows(b: DateRange, s: State)
    requires Wellformed(b, s) && s.mode == Years
    ensures PrevArrow(b, s) == Hidden && NextArrow(b, s) == Hidden
    ensures Step(b, s, PrevPressed) == Transition(s, None)
    ensures Step(b, s, NextPressed) == Transition(s, None)
  {
  }

  /** Picking an enabled month tile shows that month of the displayed year in
      the day view; when the bounds are not inverted that month has a day that
      can be selected. */
  lemma MonthPickOpensDays(b: DateRange, s: State, idx: int)
    requires Wellformed(b, s) && s.mode == Months && 0 <= idx < 12
    requires !MonthTileDisabled(b, s.displayed.year, idx)
    ensures var r := Step(b, s, MonthPicked(idx)).state;
            r.mode == Days && r.displayed == Date(s.displayed.year, idx + 1, 1)
    ensures !Inverted(b) ==>
              exists d :: InMonth(d, s.displayed.year, idx + 1) && !IsDateDisabled(b, d)
  {
    assert Step(b, s, MonthPicked(idx)).state == PickMonth(s, idx);
    if !Inverted(b) {
      var d := EnabledTileHasEnabledDay(b, s.displayed.year, idx);
      assert InMonth(d, s.displayed.year, idx + 1) && !IsDateDisabled(b, d);
    }
  }

  /** Picking a listed year shows the same month of that year in the month
      view. */
  lemma YearPickOpensMonths(b: DateRange, s: State, y: int)
    requires Wellformed(b, s) && s.mode == Years
    ensures var (lo, hi) := YearSpan(b, s.displayed.year);
            var r := Step(b, s, YearPicked(y)).state;
            lo <= y <= hi ==> r.mode == Months && r.displayed == Date(y, s.displayed.month, 1)
  {
  }

  /** Selecting 2025-08-16 with no bounds hands the host "2025-08-16". */
  lemma ExampleSelection()
    ensures var s := State(Date(2025, 8, 1), Days, None);
            Step(DateRange(None, None), s, DayPressed(Date(2025, 8, 16))).emitted == Some("2025-08-16")
  {
    FormatExample();
  }
}

=== FILE: date_text.dfy ===
/** The widget's "YYYY-MM-DD" strings: `formatDate` and `parseDateString`. */
module DateText {
  import opened Wrappers
  import opened Dates

  /** Why a configuration string does not denote a date. */
  datatype ParseError =
    | InvalidDateFormat   // not three hyphen-separated runs of decimal digits
    | DateOutOfCalendar   // numeric, but no real date with a year of at least 1000

  predicate IsDigit(c: char) {
    '0' <= c <= '9'
  }

  predicate IsDigits(s: string) {
    |s| > 0 && forall i :: 0 <= i < |s| ==> IsDigit(s[i])
  }

  function DigitChar(n: int): (c: char)
    requires 0 <= n < 10
    ensures IsDigit(c) && c as int - '0' as int == n
  {
    ('0' as int + n) as char
  }

  /** `Number(s)` for a run of decimal digits. */
  function DecimalValue(s: string): nat
    requires forall i :: 0 <= i < |s| ==> IsDigit(s[i])
  {
    if |s| == 0 then 0
    else 10 * DecimalValue(s[..|s| - 1]) + DigitValue(s[|s| - 1])
  }

  function DigitValue(c: char): (n: nat)
    requires IsDigit(c)
    ensures n < 10 && DigitChar(n) == c
  {
    c as int - '0' as int
  }

  /** `String(n)` for a non-negative integer: its shortest decimal spelling. */
  function NatToDecimal(n: nat): (s: string)
    ensures IsDigits(s)
    ensures n < 10 ==> |s| == 1
    ensures 10 <= n < 100 ==> |s| == 2
    decreases n
  {
    if n < 10 then [DigitChar(n)] else NatToDecimal(n / 10) + [DigitChar(n % 10)]
  }

  /** The template literal `${y}` for a year: a minus sign before negative years. */
  function IntToDecimal(i: int): string {
    if i < 0 then "-" + NatToDecimal(-i) else NatToDecimal(i)
  }

  /** `String(n).padStart(2, "0")`. */
  function Pad2(n: nat): (s: string)
    ensures IsDigits(s)
    ensures n < 100 ==> |s| == 2
  {
    var t := NatToDecimal(n);
    if |t| < 2 then "0" + t else t
  }

  /** `formatDate`: the year unpadded, then month and day as two digits each,
      joined by hyphens. */
  function Format(d: Date): (s: string)
    requires ValidDate(d)
    ensures |s| == |IntToDecimal(d.year)| + 6
    ensures s[..|s| - 6] == IntToDecimal(d.year)
    ensures s[|s| - 6] == '-' && s[|s| - 3] == '-'
    ensures IsDigits(s[|s| - 5..|s| - 3]) && DecimalValue(s[|s| - 5..|s| - 3]) == d.month
    ensures IsDigits(s[|s| - 2..]) && DecimalValue(s[|s| - 2..]) == d.day
  {
    var s := IntToDecimal(d.year) + "-" + Pad2(d.month) + "-" + Pad2(d.day);
    Pad2Value(d.month);
    Pad2Value(d.day);
    assert s[|s| - 5..|s| - 3] == Pad2(d.month);
    assert s[|s| - 2..] == Pad2(d.day);
    s
  }

  /** `str.split("-")`. */
  function Split(s: string, sep: char): (parts: seq<string>)
    ensures |parts| >= 1
    decreases |s|
  {
    if |s| == 0 then [""]
    else
      var rest := Split(s[1..], sep);
      if s[0] == sep then [""] + rest else [[s[0]] + rest[0]] + rest[1..]
  }

  /** `parseDateString` for a string that is present: split at the hyphens and
      read the three components. Where JS would roll an out-of-range component
      into a neighbouring month or year, this model reports an error instead. */
  function Parse(s: string): (r: Result<Date, ParseError>)
    ensures r.Success? ==> ValidDate(r.value) && r.value.year >= 1000
  {
    var parts := Split(s, '-');
    if |parts| != 3 || !IsDigits(parts[0]) || !IsDigits(parts[1]) || !IsDigits(parts[2]) then
      Failure(InvalidDateFormat)
    else
      var d := Date(DecimalValue(parts[0]), DecimalValue(parts[1]), DecimalValue(parts[2]));
      if d.year < 1000 || !ValidDate(d) then Failure(DateOutOfCalendar) else Success(d)
  }

  /** A bound given as an optional string: absent or empty means no bound
      (`if (!str) return null`). */
  function ParseBound(s: Option<string>): (r: Result<Option<Date>, ParseError>)
    ensures r.Success? && r.value.None? <==> s.None? || s == Some("")
    ensures r.Success? && r.value.Some? ==> ValidDate(r.value.value)
    ensures s.Some? && s.value != "" ==>
              (r.Success? <==> Parse(s.value).Success?)
              && (r.Success? ==> r.value == Some(Parse(s.value).value))
  {
    match s
    case None => Success(None)
    case Some(str) =>
      if str == "" then Success(None)
      else match Parse(str)
        case Success(d) => Success(Some(d))
        case Failure(e) => Failure(e)
  }

  // ---------------------------------------------------------------------------
  // Round trip

  lemma {:induction false} DecimalRoundTrip(n: nat)
    ensures DecimalValue(NatToDecimal(n)) == n
    decreases n
  {
    if n >= 10 {
      var s := NatToDecimal(n);
      DecimalRoundTrip(n / 10);
      assert s[..|s| - 1] == NatToDecimal(n / 10);
    }
  }

  lemma Pad2Value(n: nat)
    ensures DecimalValue(Pad2(n)) == n
  {
    DecimalRoundTrip(n);
    var t := NatToDecimal(n);
    if |t| < 2 {
      var p := "0" + t;
      assert p[..|p| - 1] == "0";
      assert DecimalValue("0") == 10 * DecimalValue("") + 0;
    }
  }

  lemma {:induction false} SplitWithoutSeparator(a: string, sep: char)
    requires forall i :: 0 <= i < |a| ==> a[i] != sep
    ensures Split(a, sep) == [a]
    decreases |a|
  {
    if |a| > 0 {
      SplitWithoutSeparator(a[1..], sep);
      assert [a[0]] + a[1..] == a;
    }
  }

  lemma {:induction false} SplitAtSeparator(a: string, sep: char, t: string)
    requires forall i :: 0 <= i < |a| ==> a[i] != sep
    ensures Split(a + [sep] + t, sep) == [a] + Split(t, sep)
    decreases |a|
  {
    var s := a + [sep] + t;
    if |a| == 0 {
      assert s[1..] == t;
    } else {
      assert s[1..] == a[1..] + [sep] + t;
      SplitAtSeparator(a[1..], sep, t);
      assert [a[0]] + a[1..] == a;
    }
  }

  /** Formatting a date and parsing the string back gives the date again, for
      every date the parser accepts a year for. */
  lemma ParseFormatRoundTrip(d: Date)
    requires ValidDate(d) && d.year >= 1000
    ensures Parse(Format(d)) == Success(d)
  {
    var y := NatToDecimal(d.year);
    var m := Pad2(d.month);
    var dd := Pad2(d.day);
    var s := Format(d);
    assert s == y + "-" + m + "-" + dd;
    assert s == y + ['-'] + (m + ['-'] + dd);
    SplitAtSeparator(y, '-', m + ['-'] + dd);
    SplitAtSeparator(m, '-', dd);
    SplitWithoutSeparator(dd, '-');
    assert Split(s, '-') == [y, m, dd];
    DecimalRoundTrip(d.year);
    Pad2Value(d.month);
    Pad2Value(d.day);
  }

  /** The canonical spelling the widget's own strings use: a year without a
      leading zero, then two-digit month and day. */
  predicate IsCanonical(s: string) {
    var parts := Split(s, '-');
    && |parts| == 3
    && IsDigits(parts[0]) && parts[0][0] != '0'
    && IsDigits(parts[1]) && |parts[1]| == 2
    && IsDigits(parts[2]) && |parts[2]| == 2
  }

  lemma {:induction false} LeadingDigitPositive(t: string)
    requires IsDigits(t) && t[0] != '0'
    ensures DecimalValue(t) >= 1
    decreases |t|
  {
    if |t| > 1 {
      LeadingDigitPositive(t[..|t| - 1]);
    }
  }

  lemma {:induction false} DecimalOfDigits(t: string)
    requires IsDigits(t) && t[0] != '0'
    ensures NatToDecimal(DecimalValue(t)) == t
    decreases |t|
  {
    var init := t[..|t| - 1];
    var last := DigitValue(t[|t| - 1]);
    if |t| > 1 {
      LeadingDigitPositive(init);
      DecimalOfDigits(init);
      var v := DecimalValue(t);
      assert v / 10 == DecimalValue(init) && v % 10 == last;
      assert init + [t[|t| - 1]] == t;
    }
  }

  lemma Pad2OfTwoDigits(t: string)
    requires IsDigits(t) && |t| == 2
    ensures Pad2(DecimalValue(t)) == t
  {
    var hi := DigitValue(t[0]);
    var lo := DigitValue(t[1]);
    assert t[..1] == [t[0]];
    assert DecimalValue([t[0]]) == hi;
    assert DecimalValue(t) == 10 * hi + lo;
    if hi != 0 {
      assert NatToDecimal(10 * hi + lo) == NatToDecimal(hi) + [DigitChar(lo)];
    }
  }

  /** Parsing a canonical string and formatting the date gives back the same
      string: the formatter spells every date the parser reads from such a
      string exactly as it was written. */
  lemma FormatParseRoundTrip(s: string)
    requires IsCanonical(s) && Parse(s).Success?
    ensures Format(Parse(s).value) == s
  {
    var parts := Split(s, '-');
    DecimalOfDigits(parts[0]);
    Pad2OfTwoDigits(parts[1]);
    Pad2OfTwoDigits(parts[2]);
    JoinSplit(s, '-');
    assert parts[1..][1..] == [parts[2]];
    assert Join(parts[1..], '-') == parts[1] + "-" + parts[2];
  }

  /** Gluing the pieces of a split back together with the separator gives the
      string. */
  function Join(parts: seq<string>, sep: char): string
    requires |parts| >= 1
  {
    if |parts| == 1 then parts[0] else parts[0] + [sep] + Join(parts[1..], sep)
  }

  lemma {:induction false} JoinSplit(s: string, sep: char)
    ensures Join(Split(s, sep), sep) == s
    decreases |s|
  {
    if |s| > 0 {
      JoinSplit(s[1..], sep);
      var rest := Split(s[1..], sep);
      if s[0] == sep {
        assert ([""] + rest)[1..] == rest;
      } else {
        var parts := [[s[0]] + rest[0]] + rest[1..];
        if |rest| > 1 {
          assert parts[1..] == rest[1..];
        }
        assert s == [s[0]] + s[1..];
      }
    }
  }

  /** `formatDate(new Date(2025, 7, 16))` is "2025-08-16". */
  lemma FormatExample()
    ensures Format(Date(2025, 8, 16)) == "2025-08-16"
  {
  }
}

=== FILE: dates.dfy ===
/** Calendar dates in the proleptic Gregorian calendar used by ECMAScript `Date`
    (section 21.4.1 of ECMA-262, 2024 edition), restricted to local calendar days: a date is a
    year, a month 1..12 and a day of the month, and every date the widget
    handles is normalised. */
module Dates {

  datatype Date = Date(year: int, month: int, day: int)

  predicate IsLeapYear(y: int) {
    y % 4 == 0 && (y % 100 != 0 || y % 400 == 0)
  }

  function DaysInYear(y: int): int {
    if IsLeapYear(y) then 366 else 365
  }

  function DaysInMonth(y: int, m: int): (n: int)
    requires 1 <= m <= 12
    ensures 28 <= n <= 31
    ensures m == 2 ==> (n == 29 <==> IsLeapYear(y))
  {
    if m == 2 then (if IsLeapYear(y) then 29 else 28)
    else if m == 4 || m == 6 || m == 9 || m == 11 then 30
    else 31
  }

  /** A normalised date: what every JS `Date` in the widget denotes. */
  predicate ValidDate(d: Date) {
    1 <= d.month <= 12 && 1 <= d.day <= DaysInMonth(d.year, d.month)
  }

  /** Number of days from 1970-01-01 to January 1st of year `y`
      (the abstract operation DayFromYear of ECMA-262); Dafny's `/` by a positive
      constant is the floor the standard asks for. */
  function DayFromYear(y: int): int {
    365 * (y - 1970) + (y - 1969) / 4 - (y - 1901) / 100 + (y - 1601) / 400
  }

  /** Days of year `y` that precede the first of month `m`. */
  function DaysBeforeMonth(y: int, m: int): int
    requires 1 <= m <= 12
  {
    var common :=
      if m == 1 then 0 else if m == 2 then 31 else if m == 3 then 59
      else if m == 4 then 90 else if m == 5 then 120 else if m == 6 then 151
      else if m == 7 then 181 else if m == 8 then 212 else if m == 9 then 243
      else if m == 10 then 273 else if m == 11 then 304 else 334;
    if m > 2 && IsLeapYear(y) then common + 1 else common
  }

  /** The day number of a date counted from 1970-01-01: the time value of the
      date's local midnight divided by the milliseconds of a day. Comparing two
      JS dates created at midnight compares exactly these numbers. */
  function DayNumber(d: Date): int
    requires 1 <= d.month <= 12
  {
    DayFromYear(d.year) + DaysBeforeMonth(d.year, d.month) + d.day - 1
  }

  /** Day of the week, 0 = Sunday .. 6 = Saturday (the abstract operation
      WeekDay of ECMA-262: 1970-01-01 was a Thursday). */
  function WeekDay(d: Date): (w: int)
    requires 1 <= d.month <= 12
    ensures 0 <= w < 7
  {
    (DayNumber(d) + 4) % 7
  }

  /** A day of month `m` of year `y`. */
  predicate InMonth(d: Date, y: int, m: int) {
    ValidDate(d) && d.year == y && d.month == m
  }

  /** `a < b` on two JS dates: an earlier time value. */
  predicate Before(a: Date, b: Date)
    requires 1 <= a.month <= 12 && 1 <= b.month <= 12
  {
    DayNumber(a) < DayNumber(b)
  }

  /** Calendar order read off the components: the independent reference for
      `Before`. */
  predicate EarlierInCalendar(a: Date, b: Date) {
    a.year < b.year
    || (a.year == b.year && a.month < b.month)
    || (a.year == b.year && a.month == b.month && a.day < b.day)
  }

  /** The month count `12 * year + (month - 1)`: JS's zero-based month index
      taken absolutely. */
  function AbsMonth(d: Date): int {
    12 * d.year + d.month - 1
  }

  /** The first day of month index `mi` of year `y`, where `mi` may fall
      outside 0..11 and carries into the year (the abstract operation MakeDay
      of ECMA-262). This is `new Date(y, mi, 1)` for a year argument outside
      0..99; the constructor's reading of 0..99 as 1900 + y is modelled apart,
      by `Navigation.JsFirstOfMonthIndex`. */
  function FirstOfMonthIndex(y: int, mi: int): (r: Date)
    ensures ValidDate(r) && r.day == 1
    ensures AbsMonth(r) == 12 * y + mi
  {
    Date(y + mi / 12, mi % 12 + 1, 1)
  }

  /** `new Date(y, mi + 1, 0)`: day 0 of the following month, which is the last
      day of month index `mi`. */
  function LastOfMonthIndex(y: int, mi: int): (r: Date)
    ensures ValidDate(r) && AbsMonth(r) == 12 * y + mi
    ensures r.day == DaysInMonth(r.year, r.month)
    ensures DayNumber(r) + 1 == DayNumber(FirstOfMonthIndex(y, mi + 1))
  {
    var f := FirstOfMonthIndex(y, mi);
    var r := Date(f.year, f.month, DaysInMonth(f.year, f.month));
    DayAfterLastIsNextFirst(f.year, f.month);
    SameAbsMonthSameMonth(FirstOfMonthIndex(f.year, f.month), FirstOfMonthIndex(y, mi + 1));
    r
  }

  /** `isSameDate(d1, d2)`: false when either side is absent, otherwise the
      year, month and day agree. */
  predicate IsSameDate(a: Date, b: Date) {
    a.year == b.year && a.month == b.month && a.day == b.day
  }

  lemma IsSameDateIsEquality(a: Date, b: Date)
    ensures IsSameDate(a, b) <==> a == b
  {
  }

  /** Two dates with months in range that have the same absolute month lie in
      the same month of the same year. */
  lemma SameAbsMonthSameMonth(a: Date, b: Date)
    requires 1 <= a.month <= 12 && 1 <= b.month <= 12
    requires AbsMonth(a) == AbsMonth(b)
    ensures a.year == b.year && a.month == b.month
  {
  }

  // ---------------------------------------------------------------------------
  // Day-number arithmetic

  lemma DayFromYearStep(y: int)
    ensures DayFromYear(y + 1) == DayFromYear(y) + DaysInYear(y)
  {
    assert (y + 1 - 1969) / 4 - (y - 1969) / 4 == (if y % 4 == 0 then 1 else 0);
    assert (y + 1 - 1901) / 100 - (y - 1901) / 100 == (if y % 100 == 0 then 1 else 0);
    assert (y + 1 - 1601) / 400 - (y - 1601) / 400 == (if y % 400 == 0 then 1 else 0);
  }

  lemma {:induction false} DayFromYearIncreases(y1: int, y2: int)
    requires y1 < y2
    ensures DayFromYear(y1) + DaysInYear(y1) <= DayFromYear(y2)
    decreases y2 - y1
  {
    DayFromYearStep(y1);
    if y1 + 1 < y2 {
      DayFromYearIncreases(y1 + 1, y2);
    }
  }

  lemma MonthFitsInYear(y: int, m: int)
    requires 1 <= m <= 12
    ensures DaysBeforeMonth(y, m) >= 0
    ensures DaysBeforeMonth(y, m) + DaysInMonth(y, m) <= DaysInYear(y)
    ensures m < 12 ==> DaysBeforeMonth(y, m) + DaysInMonth(y, m) == DaysBeforeMonth(y, m + 1)
    ensures m == 12 ==> DaysBeforeMonth(y, m) + DaysInMonth(y, m) == DaysInYear(y)
  {
  }

  lemma {:induction false} MonthsIncrease(y: int, m1: int, m2: int)
    requires 1 <= m1 < m2 <= 12
    ensures DaysBeforeMonth(y, m1) + DaysInMonth(y, m1) <= DaysBeforeMonth(y, m2)
    decreases m2 - m1
  {
    MonthFitsInYear(y, m1);
    if m1 + 1 < m2 {
      MonthsIncrease(y, m1 + 1, m2);
      MonthFitsInYear(y, m1 + 1);
    }
  }

  /** The day after the last day of a month is the first of the next month,
      December rolling into January of the next year. */
  lemma DayAfterLastIsNextFirst(y: int, m: int)
    requires 1 <= m <= 12
    ensures DayNumber(Date(y, m, DaysInMonth(y, m))) + 1
            == DayNumber(FirstOfMonthIndex(y, m))
  {
    MonthFitsInYear(y, m);
    if m == 12 {
      DayFromYearStep(y);
    }
  }

  /** A calendar-earlier date has a smaller day number. */
  lemma EarlierHasSmallerDayNumber(a: Date, b: Date)
    requires ValidDate(a) && ValidDate(b)
    requires EarlierInCalendar(a, b)
    ensures DayNumber(a) < DayNumber(b)
  {
    if a.year < b.year {
      MonthFitsInYear(a.year, a.month);
      MonthFitsInYear(b.year, b.month);
      DayFromYearIncreases(a.year, b.year);
    } else if a.month < b.month {
      MonthsIncrease(a.year, a.month, b.month);
    }
  }

  /** JS's `<` on midnight dates is calendar order, and equal time values mean
      equal dates. */
  lemma BeforeIsCalendarOrder(a: Date, b: Date)
    requires ValidDate(a) && ValidDate(b)
    ensures Before(a, b) <==> EarlierInCalendar(a, b)
    ensures DayNumber(a) == DayNumber(b) <==> a == b
  {
    if EarlierInCalendar(a, b) {
      EarlierHasSmallerDayNumber(a, b);
    } else if EarlierInCalendar(b, a) {
      EarlierHasSmallerDayNumber(b, a);
    }
  }

  /** 2025-08-01 was a Friday. */
  lemma AugustFirst2025IsFriday()
    ensures WeekDay(Date(2025, 8, 1)) == 5
  {
  }
}

=== FILE: month_grid.dfy ===
/** `buildCalendar`: the day view's fixed grid of six weeks of seven cells,
    Sunday first, holding the days of the displayed month and blanks around
    them. */
module MonthGrid {
  import opened Wrappers
  import opened Dates

  /** A grid cell: a day of the displayed month, or `null` padding. */
  type Cell = Option<Date>

  function Blanks(n: nat): (cells: seq<Cell>)
    ensures |cells| == n && forall i :: 0 <= i < n ==> cells[i] == None
  {
    seq(n, _ => None)
  }

  /** Days 1..DaysInMonth(y, m) of month `m`, in order. */
  function MonthDays(y: int, m: int): (days: seq<Date>)
    requires 1 <= m <= 12
    ensures |days| == DaysInMonth(y, m)
    ensures forall k :: 0 <= k < |days| ==> days[k] == Date(y, m, k + 1) && ValidDate(days[k])
  {
    seq(DaysInMonth(y, m), k => Date(y, m, k + 1))
  }

  function AsCells(days: seq<Date>): (cells: seq<Cell>)
    ensures |cells| == |days| && forall k :: 0 <= k < |days| ==> cells[k] == Some(days[k])
  {
    seq(|days|, k requires 0 <= k < |days| => Some(days[k]))
  }

  /** The 42 cells of a month read row by row: as many blanks as the weekday of
      the 1st, the days of the month, then blanks up to the end of the sixth
      week. */
  function Layout(y: int, m: int): (cells: seq<Cell>)
    requires 1 <= m <= 12
    ensures |cells| == 42
  {
    var lead := WeekDay(Date(y, m, 1));
    Blanks(lead) + AsCells(MonthDays(y, m)) + Blanks(42 - lead - DaysInMonth(y, m))
  }

  /** The weeks of a grid laid end to end. */
  function Flatten(weeks: seq<seq<Cell>>): seq<Cell> {
    if |weeks| == 0 then [] else Flatten(weeks[..|weeks| - 1]) + weeks[|weeks| - 1]
  }

  /** The dates of the non-blank cells, in grid order. */
  function NonBlank(cells: seq<Cell>): seq<Date> {
    if |cells| == 0 then []
    else NonBlank(cells[..|cells| - 1]) + (if cells[|cells| - 1].Some? then [cells[|cells| - 1].value] else [])
  }

  predicate WeeksOfSeven(weeks: seq<seq<Cell>>) {
    forall w :: 0 <= w < |weeks| ==> |weeks[w]| == 7
  }

  /** `buildCalendar` for the displayed month `cur` (always held as its 1st):
      six weeks of seven cells whose cells, read row by row, are the layout of
      the month. */
  method BuildCalendar(cur: Date) returns (weeks: seq<seq<Cell>>)
    requires ValidDate(cur) && cur.day == 1
    ensures |weeks| == 6 && WeeksOfSeven(weeks)
    ensures Flatten(weeks) == Layout(cur.year, cur.month)
    ensures forall w, c :: 0 <= w < 6 && 0 <= c < 7 ==>
              weeks[w][c] == Layout(cur.year, cur.month)[7 * w + c]
  {
    var startDay := WeekDay(cur);
    var daysInMonth := DaysInMonth(cur.year, cur.month);
    weeks := FillWeeks(startDay, daysInMonth, cur.year, cur.month);
    LayoutIsCells(cur.year, cur.month);
    FlattenIndex(weeks);
  }

  /** The loops of `buildCalendar`: `lead` blanks, days 1..dim cut into weeks
      of seven, the last week padded, then all-blank weeks up to six. */
  method FillWeeks(lead: int, dim: int, y: int, m: int) returns (weeks: seq<seq<Cell>>)
    requires 0 <= lead < 7 && 28 <= dim <= 31
    ensures |weeks| == 6 && WeeksOfSeven(weeks)
    ensures Flatten(weeks) == Cells(lead, dim, y, m)
  {
    ghost var layout := Cells(lead, dim, y, m);
    var week: seq<Cell>;
    weeks, week := FillDays(lead, dim, y, m);

    while |week| > 0 && |week| < 7
      invariant WeeksOfSeven(weeks) && |week| <= 7
      invariant lead + dim <= 7 * |weeks| + |week|
      invariant 7 * |weeks| <= lead + dim
      invariant Flatten(weeks) + week == layout[..7 * |weeks| + |week|]
      decreases 7 - |week|
    {
      Extend(layout, Flatten(weeks) + week, None);
      week := week + [None];
    }
    if |week| == 7 {
      FlattenSnoc(weeks, week);
      weeks := weeks + [week];
    }

    while |weeks| < 6
      invariant WeeksOfSeven(weeks) && |weeks| <= 6
      invariant lead + dim <= 7 * |weeks|
      invariant Flatten(weeks) == layout[..7 * |weeks|]
      decreases 6 - |weeks|
    {
      var n := 7 * |weeks|;
      assert layout[n..n + 7] == Blanks(7);
      assert layout[..n + 7] == layout[..n] + layout[n..n + 7];
      FlattenSnoc(weeks, Blanks(7));
      weeks := weeks + [Blanks(7)];
    }
    assert layout[..42] == layout;
  }

  /** The first two loops of `buildCalendar`: the leading blanks and the days,
      leaving the unfinished last week in `week`. */
  method FillDays(lead: int, dim: int, y: int, m: int) returns (weeks: seq<seq<Cell>>, week: seq<Cell>)
    requires 0 <= lead < 7 && 28 <= dim <= 31
    ensures WeeksOfSeven(weeks) && |week| < 7
    ensures 7 * |weeks| + |week| == lead + dim
    ensures Flatten(weeks) + week == Cells(lead, dim, y, m)[..lead + dim]
  {
    ghost var layout := Cells(lead, dim, y, m);
    weeks := [];
    week := [];

    var i := 0;
    while i < lead
      invariant 0 <= i <= lead && weeks == [] && |week| == i
      invariant Flatten(weeks) + week == layout[..i]
    {
      Extend(layout, Flatten(weeks) + week, None);
      week := week + [None];
      i := i + 1;
    }

    var day := 1;
    while day <= dim
      invariant 1 <= day <= dim + 1
      invariant WeeksOfSeven(weeks) && |week| < 7
      invariant 7 * |weeks| + |week| == lead + day - 1
      invariant Flatten(weeks) + week == layout[..7 * |weeks| + |week|]
    {
      Extend(layout, Flatten(weeks) + week, Some(Date(y, m, day)));
      week := week + [Some(Date(y, m, day))];
      if |week| == 7 {
        FlattenSnoc(weeks, week);
        weeks := weeks + [week];
        week := [];
      }
      day := day + 1;
    }
  }

  /** The layout cell by cell, for a first-week offset `lead` and a month
      length `dim`. */
  function Cells(lead: int, dim: int, y: int, m: int): (cells: seq<Cell>)
    ensures |cells| == 42
  {
    seq(42, j => if lead <= j < lead + dim then Some(Date(y, m, j - lead + 1)) else None)
  }

  lemma LayoutIsCells(y: int, m: int)
    requires 1 <= m <= 12
    ensures Layout(y, m) == Cells(WeekDay(Date(y, m, 1)), DaysInMonth(y, m), y, m)
  {
    LayoutAt(y, m);
  }

  /** What each cell of the layout holds. */
  lemma LayoutAt(y: int, m: int)
    requires 1 <= m <= 12
    ensures var lead := WeekDay(Date(y, m, 1));
            var dim := DaysInMonth(y, m);
            forall j :: 0 <= j < 42 ==>
              Layout(y, m)[j] == (if lead <= j < lead + dim then Some(Date(y, m, j - lead + 1)) else None)
  {
    var lead := WeekDay(Date(y, m, 1));
    var days := AsCells(MonthDays(y, m));
    assert Layout(y, m) == (Blanks(lead) + days) + Blanks(42 - lead - DaysInMonth(y, m));
  }

  lemma Extend(layout: seq<Cell>, prefix: seq<Cell>, c: Cell)
    requires |prefix| < |layout| && prefix == layout[..|prefix|] && layout[|prefix|] == c
    ensures prefix + [c] == layout[..|prefix| + 1]
  {
  }

  lemma FlattenSnoc(weeks: seq<seq<Cell>>, week: seq<Cell>)
    ensures Flatten(weeks + [week]) == Flatten(weeks) + week
  {
    assert (weeks + [week])[..|weeks|] == weeks;
  }

  /** Cell `c` of week `w` is cell `7 * w + c` of the flattened grid. */
  lemma {:induction false} FlattenIndex(weeks: seq<seq<Cell>>)
    requires WeeksOfSeven(weeks)
    ensures |Flatten(weeks)| == 7 * |weeks|
    ensures forall w, c :: 0 <= w < |weeks| && 0 <= c < 7 ==> weeks[w][c] == Flatten(weeks)[7 * w + c]
  {
    if |weeks| > 0 {
      var init := weeks[..|weeks| - 1];
      FlattenIndex(init);
      assert Flatten(weeks) == Flatten(init) + weeks[|weeks| - 1];
    }
  }

  // ---------------------------------------------------------------------------
  // What the layout holds

  /** The first week starts with exactly as many blanks as the weekday of the
      1st (Sunday = 0), and the 1st follows them. */
  lemma LeadingBlanksAreWeekday(y: int, m: int)
    requires 1 <= m <= 12
    ensures var lead := WeekDay(Date(y, m, 1));
            && lead < 7
            && (forall j :: 0 <= j < lead ==> Layout(y, m)[j] == None)
            && Layout(y, m)[lead] == Some(Date(y, m, 1))
  {
    LayoutAt(y, m);
  }

  lemma {:induction false} NonBlankAppend(a: seq<Cell>, b: seq<Cell>)
    ensures NonBlank(a + b) == NonBlank(a) + NonBlank(b)
    decreases |b|
  {
    if |b| > 0 {
      var b' := b[..|b| - 1];
      assert (a + b)[..|a + b| - 1] == a + b';
      NonBlankAppend(a, b');
    } else {
      assert a + b == a;
    }
  }

  lemma {:induction false} NonBlankOfBlanks(n: nat)
    ensures NonBlank(Blanks(n)) == []
  {
    if n > 0 {
      assert Blanks(n)[..n - 1] == Blanks(n - 1);
      NonBlankOfBlanks(n - 1);
    }
  }

  lemma {:induction false} NonBlankOfDays(days: seq<Date>)
    ensures NonBlank(AsCells(days)) == days
    decreases |days|
  {
    if |days| > 0 {
      var init := days[..|days| - 1];
      assert AsCells(days)[..|days| - 1] == AsCells(init);
      NonBlankOfDays(init);
    }
  }

  /** The non-blank cells of the grid are exactly the days 1..DaysInMonth of
      the displayed month, in order, whatever the month (leap February
      included). */
  lemma NonBlankCellsAreTheMonth(y: int, m: int)
    requires 1 <= m <= 12
    ensures NonBlank(Layout(y, m)) == MonthDays(y, m)
  {
    var lead := WeekDay(Date(y, m, 1));
    var days := AsCells(MonthDays(y, m));
    var tail := Blanks(42 - lead - DaysInMonth(y, m));
    NonBlankAppend(Blanks(lead) + days, tail);
    NonBlankAppend(Blanks(lead), days);
    NonBlankOfBlanks(lead);
    NonBlankOfBlanks(42 - lead - DaysInMonth(y, m));
    NonBlankOfDays(MonthDays(y, m));
  }

  /** The dates the day view offers are exactly the days of the displayed
      month. */
  lemma GridDatesAreMonthDays(y: int, m: int, d: Date)
    requires 1 <= m <= 12
    ensures d in NonBlank(Layout(y, m)) <==> InMonth(d, y, m)
  {
    NonBlankCellsAreTheMonth(y, m);
    var days := MonthDays(y, m);
    if InMonth(d, y, m) {
      assert days[d.day - 1] == d;
    }
  }
}

=== FILE: navigation.dfy ===
/** Moving the displayed month: the header arrows' `prevMonth`/`nextMonth` in
    the day view and `prevYear`/`nextYear` in the month view. The displayed
    month is always held as its first day. */
module Navigation {
  import opened Dates

  /** The corrected back step: the 1st of the month before, as
      `new Date(y, m - 1, 1)` gives it for a year outside 0..99. */
  function PrevMonth(cur: Date): (r: Date)
    requires ValidDate(cur)
    ensures ValidDate(r) && r.day == 1
    ensures AbsMonth(r) == AbsMonth(cur) - 1
    ensures cur.month == 1 ==> r.year == cur.year - 1 && r.month == 12
    ensures cur.month > 1 ==> r.year == cur.year && r.month == cur.month - 1
  {
    FirstOfMonthIndex(cur.year, cur.month - 1 - 1)
  }

  /** The corrected forward step: the 1st of the month after, as
      `new Date(y, m + 1, 1)` gives it for a year outside 0..99. */
  function NextMonth(cur: Date): (r: Date)
    requires ValidDate(cur)
    ensures ValidDate(r) && r.day == 1
    ensures AbsMonth(r) == AbsMonth(cur) + 1
    ensures cur.month == 12 ==> r.year == cur.year + 1 && r.month == 1
    ensures cur.month < 12 ==> r.year == cur.year && r.month == cur.month + 1
  {
    FirstOfMonthIndex(cur.year, cur.month - 1 + 1)
  }

  /** The corrected back step of the month view: the same month one year
      earlier, as `new Date(y - 1, m, 1)` gives it when `y - 1` is outside
      0..99. */
  function PrevYear(cur: Date): (r: Date)
    requires ValidDate(cur)
    ensures r == Date(cur.year - 1, cur.month, 1)
  {
    FirstOfMonthIndex(cur.year - 1, cur.month - 1)
  }

  /** The forward step of the month view: the same month one year later, as
      `new Date(y + 1, m, 1)` gives it when `y + 1` is outside 0..99. */
  function NextYear(cur: Date): (r: Date)
    requires ValidDate(cur)
    ensures r == Date(cur.year + 1, cur.month, 1)
  {
    FirstOfMonthIndex(cur.year + 1, cur.month - 1)
  }

  /** Stepping back a month and then forward returns to the displayed month,
      and so does the reverse. */
  lemma MonthStepsAreInverse(cur: Date)
    requires ValidDate(cur) && cur.day == 1
    ensures NextMonth(PrevMonth(cur)) == cur
    ensures PrevMonth(NextMonth(cur)) == cur
  {
    SameAbsMonthSameMonth(NextMonth(PrevMonth(cur)), cur);
    SameAbsMonthSameMonth(PrevMonth(NextMonth(cur)), cur);
  }

  lemma YearStepsAreInverse(cur: Date)
    requires ValidDate(cur) && cur.day == 1
    ensures NextYear(PrevYear(cur)) == cur
    ensures PrevYear(NextYear(cur)) == cur
  {
  }

  // ---------------------------------------------------------------------------
  // Two-digit years

  /** The JS constructor `new Date(y, mi, 1)` exactly as ECMA-262 defines it
      (section 21.4.2.1): a year argument from 0 to 99 is read as 1900 + y
      before the month index is applied. */
  function JsFirstOfMonthIndex(y: int, mi: int): (r: Date)
    ensures ValidDate(r) && r.day == 1
    ensures 0 <= y <= 99 ==> AbsMonth(r) == 12 * (1900 + y) + mi
    ensures (y < 0 || 99 < y) ==> r == FirstOfMonthIndex(y, mi)
  {
    if 0 <= y <= 99 then FirstOfMonthIndex(1900 + y, mi) else FirstOfMonthIndex(y, mi)
  }

  /** `prevYear` as written: it calls the JS constructor with `year - 1`. */
  function PrevYearAsWritten(cur: Date): (r: Date)
    requires ValidDate(cur)
    ensures 1 <= cur.year <= 100 ==> r == Date(cur.year + 1899, cur.month, 1)
    ensures (cur.year < 1 || 100 < cur.year) ==> r == PrevYear(cur)
  {
    JsFirstOfMonthIndex(cur.year - 1, cur.month - 1)
  }

  /** `prevMonth` as written: it calls the JS constructor with the displayed
      year and month index `month - 2`. */
  function PrevMonthAsWritten(cur: Date): (r: Date)
    requires ValidDate(cur)
    ensures 0 <= cur.year <= 99 ==> AbsMonth(r) == AbsMonth(cur) - 1 + 12 * 1900
    ensures (cur.year < 0 || 99 < cur.year) ==> r == PrevMonth(cur)
  {
    JsFirstOfMonthIndex(cur.year, cur.month - 1 - 1)
  }

  /** `nextMonth` as written: it calls the JS constructor with the displayed
      year and month index `month`. */
  function NextMonthAsWritten(cur: Date): (r: Date)
    requires ValidDate(cur)
    ensures 0 <= cur.year <= 99 ==> AbsMonth(r) == AbsMonth(cur) + 1 + 12 * 1900
    ensures (cur.year < 0 || 99 < cur.year) ==> r == NextMonth(cur)
  {
    JsFirstOfMonthIndex(cur.year, cur.month - 1 + 1)
  }

  /** December of year 99, one step back from January of year 100, steps back
      to November 1999 and forward to January 2000, while the corrected steps
      stay in years 99 and 100. */
  lemma MonthStepsAsWrittenFromDecember99()
    ensures PrevMonth(Date(100, 1, 1)) == Date(99, 12, 1)
    ensures PrevMonthAsWritten(Date(99, 12, 1)) == Date(1999, 11, 1)
    ensures NextMonthAsWritten(Date(99, 12, 1)) == Date(2000, 1, 1)
    ensures PrevMonth(Date(99, 12, 1)) == Date(99, 11, 1)
    ensures NextMonth(Date(99, 12, 1)) == Date(100, 1, 1)
  {
    SameAbsMonthSameMonth(PrevMonthAsWritten(Date(99, 12, 1)), Date(1999, 11, 1));
    SameAbsMonthSameMonth(NextMonthAsWritten(Date(99, 12, 1)), Date(2000, 1, 1));
  }

  /** Stepping back a year from January of year 100 lands in January 1999, from
      where the forward arrow does not lead back. */
  lemma PrevYearAsWrittenSkipsCenturies()
    ensures PrevYearAsWritten(Date(100, 1, 1)) == Date(1999, 1, 1)
    ensures NextYear(PrevYearAsWritten(Date(100, 1, 1))) != Date(100, 1, 1)
  {
  }
}

=== FILE: wrappers.dfy ===
/** Option and Result values used for absent bounds, an unset selection and
    parse errors. */
module Wrappers {

  /** An optional value: the widget's `null` date bounds and selection. */
  datatype Option<+T> = None | Some(value: T)

  /** A value or the reason it could not be produced. */
  datatype Result<+R, +E> = Success(value: R) | Failure(error: E)
}
